=== FILE: README.md ===
# Space shooter game logic in Dafny

This project models the game logic of a small browser space shooter (`script.js`).

- The player's ship moves left and right along the bottom of a canvas and fires bullets upward.
- Enemies fall from the top. They dodge nearby bullets sideways and fire back.
- Falling power-ups grant a shield or triple fire for a while.
- Each enemy destroyed is worth 10 points. The level goes up once the score passes 100 points per level.
- An enemy bullet that strikes the unshielded ship ends the game, and the R key restarts it.

The model keeps the whole game state in one immutable `World` value. Each operation is a pure function on it:

- `Entities` holds the state record and the box-overlap test.
- `Arrays` holds the two JavaScript array operations the loop relies on: `splice(i, 1)` and `filter`.
- `Actions` holds the operations that run outside a frame: firing, the spawners, restart and the power-up expiry timers.
- `Motion` holds the movement phases of a frame: the ship, the bullets, and the enemies with their dodging and firing.
- `Collisions` holds the three removal passes of a frame.
- `Game` holds the frame (`update`), its invariants, and sessions. A session is a sequence of frames, key presses and timer callbacks.

Outside inputs become parameters:

- The held keys and the canvas size.
- Every `Math.random()` draw: the spawn column, and which power-up spawns.
- Every timer, which becomes an `Event` that the caller applies when it fires.

Positions are exact `real`s. The source's numbers are binary doubles, so its arithmetic on positions rounds. For example, 0.15 has no exact double, and `Math.random() * 760` gives arbitrary doubles. The model does not follow that rounding.

The model follows what `script.js` does, including behaviour that looks unintended:

- **Passes that splice while walking.** The three removal passes call `splice` on the array that `forEach` is walking. `forEach` fixes the length when it starts and skips indices that are no longer present. These passes only ever shrink their array, so this is the same as stopping once the index reaches the array's current length, which is how the model walks. The element that moves into a just-vacated index is never visited.
  - In the hit pass, one bullet can destroy several enemies. Each of those hits splices index `bi` out of the bullet list, whatever bullet sits there by then. `Collisions.OneBulletTwoKills` exhibits this.
  - A power-up that follows a collected one is skipped for that frame: it neither falls nor is collected (`Collisions.PickupSkipsNeighbour`).
- **Timers keep running after game over.** The power-up spawner runs even after the game is over (`script.js:157`). Only the enemy spawner is guarded (`script.js:137`).
- **Firing is not guarded.** Firing has no game-over guard, so a finished game still accumulates bullets. The next frame freezes them.
- **Triple-fire order.** Under double fire the guns fire in the order centre (+22), left (+5), right (+40).
- **The ship is not clamped.** The left guard tests `x > 0` before the step, so the ship can reach `x = -3` (`Motion.MoveOvershootsLeftEdge`). The right guard tests the position after the left move. The ship stays within one step of the playfield (`Motion.MoveStaysInBand`).
- **A strike does not stop the frame.** A strike that ends the game does not stop the rest of that frame. The power-ups and the level check still run.
- **Enemies are never pruned.** Enemies that fall off the bottom stay in the list.
- **Expiry timers do not track pickups.** Each expiry timer clears its flag 5 seconds after any pickup of that kind, even when a later pickup re-armed it. The model applies `ShieldTimeout` and `DoubleFireTimeout` whenever the caller says a timer fired.

## Model

| member | source | states |
|---|---|---|
| Entities.Collide | script.js:160-167 | `collide(a, b)`: the 5 by 10 probe at the projectile overlaps the enemy's rectangle, as four strict inequalities |
| Entities.CollideIffOverlap | script.js:160-167 | for an enemy of positive size, the four inequalities hold exactly when the bullet's 5 by 10 probe and the enemy's rectangle share an interior point |
| Arrays.Remove | script.js:222-223 | `splice(i, 1)`: below the end, the result is one shorter, loses exactly that element (multiset), keeps the prefix and shifts the suffix down; at or past the end it changes nothing |
| Arrays.Filter | script.js:202 | `filter`: every kept element is accepted and was present, every accepted element is kept, nothing is added (multiset), and a one-element list is kept exactly when its element is accepted; with FilterConcat this fixes the order |
| Arrays.FilterCount | script.js:202 | every accepted value is kept exactly as often as it occurs, and every rejected value not at all |
| Arrays.FilterNarrow | script.js:202 | filtering by a looser test and then a stricter one is filtering by the stricter one alone |
| Arrays.FilterConcat | script.js:202 | filtering distributes over concatenation |
| Arrays.RemoveRejected | script.js:237 | splicing out an element the filter rejects leaves the filtered list unchanged |
| Actions.Shoot | script.js:117-124 | only the bullet list changes; the old bullets stay in front; one bullet at +22, then at +5 and +40 under double fire, in that order, all at the ship's top at speed 8 |
| Actions.ShotsLeaveTheShip | script.js:117-122 | for a ship at least 45 wide, every new bullet starts at the ship's top with its probe inside the ship's span |
| Actions.ShootFromStart | script.js:117-122 | from the start column the shots are at 397, then 380 and 415 |
| Actions.SpawnEnemy | script.js:127-136 | one enemy is appended and nothing else changes; it starts at the top of the drawn column, fully inside an 800-wide field, 40 by 20, falling at 2 + level, with cooldown 0 |
| Actions.EnemyTimer | script.js:137 | a finished game spawns nothing; a running one keeps its enemies in front and gains exactly the enemy `spawnEnemy` builds at the drawn column |
| Actions.SpawnPowerUp | script.js:149-157 | nothing but the power-up list changes, even in a finished game; the old power-ups stay in front; the new one has the drawn kind, starts at the top of the drawn column, and its drawn 20-wide square lies inside the 800-wide field |
| Actions.Restart | script.js:170-181 | all four lists are empty, score 0, level 1, every flag off, and the ship is back at column 375 with its geometry kept |
| Actions.RestartIsInitial | script.js:79-92 | for a ship of the initial geometry, restarting yields exactly the declared initial state, and restarting twice is the same as once |
| Actions.RestartKey | script.js:106 | after the R key the game is always running: a finished game is restarted, a running one is left alone |
| Actions.RestartKeyIdempotent | script.js:106 | pressing R twice has the same effect as pressing it once |
| Game.ShieldExpiryExposesShip | script.js:256 | once the shield timer has fired, the strike pass ends the game exactly when it was over or some enemy bullet strikes the ship |
| Actions.ExpiredDoubleFireShootsOnce | script.js:261 | once the double-fire timer has fired, the fire key adds only the centre gun's bullet |
| Motion.MovePlayer | script.js:197-199 | only the ship's x changes, by one step or not at all. The following holds for a positive speed. With only the left key held, it steps left exactly when x > 0. With only the right key held, it steps right exactly when it is short of the right edge. With both held and x > 0, the two steps cancel exactly when the left step leaves it short of the right edge; with the right key held and no left step taken, it steps right exactly when it is short of the right edge. Any step needs its key and its guard |
| Motion.MoveStaysInBand | script.js:197-199 | the ship never leaves the band within one step of the playfield |
| Motion.MoveOvershootsLeftEdge | script.js:197 | a ship at x = 3 moving left ends at x = -3 |
| Motion.AdvanceBullets | script.js:201-202 | every surviving bullet is an input bullet moved up by its speed and lies below the top edge; every moved bullet below the top edge survives |
| Motion.AdvanceEnemyBullets | script.js:215-216 | every surviving enemy bullet is an input bullet moved down by its speed and lies above the bottom edge; every moved bullet above that edge survives |
| Motion.AdvanceBulletsCount | script.js:201-202 | each moved bullet below the top edge survives exactly as often as it occurs among the moved bullets, and no other bullet survives |
| Motion.AdvanceEnemyBulletsCount | script.js:215-216 | each moved enemy bullet above the bottom edge survives exactly as often as it occurs among the moved bullets, and no other bullet survives |
| Motion.Nudge | script.js:186-187 | only x changes; an unthreatening bullet leaves the enemy in place; a threatening one pushes it away from itself, so that its distance to the bullet grows by exactly 15% (strictly unless they are level), and it moves by less than 4.5 |
| Motion.Dodge | script.js:184-190 | only x changes, by at most 4.5 per bullet |
| Motion.DodgeSnoc | script.js:185-189 | the bullets push one after another, in list order: one more bullet at the end is one more nudge from the position the others left |
| Motion.DodgeUnthreatened | script.js:184-190 | an enemy that no bullet threatens does not move |
| Motion.EnemyShoot | script.js:140-146 | the shot starts at the middle of the enemy's bottom edge with speed 4 + level |
| Motion.ShotFromWithin | script.js:142 | the shot starts strictly inside the enemy's horizontal span |
| Motion.StepEnemy | script.js:204-213 | the enemy falls by its speed and dodges; it fires exactly when its incremented cooldown exceeds 80, and then its cooldown is 0 and the shot is `EnemyShoot` from its new position; otherwise the cooldown is one higher; a cooldown in [0, 80] stays in [0, 80] |
| Motion.StepEnemies | script.js:204-213 | the enemy list keeps its length, each enemy steps independently, and there are at most as many shots as enemies (exactly one per due enemy: ShotCount) |
| Motion.ShotCount | script.js:204-212 | the enemy phase fires exactly as many shots as there are enemies whose incremented cooldown passes 80 |
| Motion.ShotsFromDueEnemies | script.js:208-212 | every shot comes from an enemy whose cooldown has just been reset, fired from that enemy's new position |
| Motion.DueEnemiesFire | script.js:208-212 | every enemy whose incremented cooldown passed 80 has its shot among the new shots |
| Motion.CooldownsStayBounded | script.js:208-212 | cooldowns in [0, 80] stay in [0, 80] across the enemy phase |
| Collisions.SweepEnemies | script.js:220-227 | each hit removes exactly one enemy and at most one bullet; nothing is added; there is no hit exactly when the bullet overlaps no remaining enemy, and then nothing changes |
| Collisions.SweepBullets | script.js:219-228 | the enemies lost equal the hits; bullets lost are at most the hits; nothing is added; there is no hit exactly when no bullet overlaps any enemy, and then nothing changes (which enemies are lost: SweepSparesUntouched) |
| Collisions.SweepSparesMissed | script.js:220-223 | the inner walk only destroys enemies the bullet overlaps: every enemy it does not overlap survives, as often as before and in order |
| Collisions.SweepSparesUntouched | script.js:219-228 | the pass only destroys enemies some bullet overlaps: every enemy no bullet overlaps survives, as often as before and in order |
| Collisions.SweepOnlyRemoves | script.js:219-228 | every surviving bullet and enemy was there before the pass |
| Collisions.SecondKill | script.js:220-227 | after a first hit, the second copy of the enemy shifts into the next visited index and is destroyed too |
| Collisions.OneBulletTwoKills | script.js:219-228 | one bullet destroys two enemies and removes the bullet behind it, which is never checked for a hit |
| Collisions.SweepEnemyBullets | script.js:231-243 | each strike removes one enemy bullet; the bullets that do not strike the ship are all kept, in order; there is no strike exactly when no bullet strikes the ship, and then nothing changes |
| Collisions.SweepPowerUps | script.js:246-265 | the power-ups lost equal the ones collected; nothing is collected exactly when no power-up reaches the ship after falling, and then every visited power-up has fallen by 2 |
| Collisions.SweepKeepsKinds | script.js:246-265 | no power-up is lost or made up: the kinds left on screen and the kinds collected are together the kinds there were |
| Collisions.SweepKeepsPrefix | script.js:246-265 | the pass from index `i` leaves the power-ups before `i` as they were |
| Collisions.SweepSurvivors | script.js:246-265 | every power-up left from index `i` on is an input power-up from index `i` on, either fallen by 2 or not moved |
| Collisions.CollectedReachShip | script.js:248-263 | only power-ups that reach the ship are collected: each collected kind is the kind of a power-up that reaches the ship after falling |
| Collisions.FirstReachingCollected | script.js:246-265 | the first power-up that reaches the ship after falling is the first one collected |
| Collisions.PickupSkipsNeighbour | script.js:246-265 | of two power-ups that both reach the ship, only the first is collected; the second is skipped and does not fall |
| Game.HitPass | script.js:219-228 | only the bullets, enemies and score change; each explosion removes one enemy and adds exactly 10 points; nothing is added; every enemy no bullet overlaps survives, in order; there is an explosion exactly when some bullet overlaps some enemy |
| Game.StrikePass | script.js:231-243 | only the enemy bullets and the game-over flag change; the list shrinks exactly when some bullet strikes the ship; with the shield up nothing plays; with it down one game-over cue plays per removed bullet; the game is over exactly when it was or a cue played |
| Game.PowerUpPass | script.js:246-265 | one cue per collected power-up, and every collected power-up switches on its own kind's flag; the flags only switch on; the shield switches on only if a shield power-up reaches the ship after falling, and double fire only if a double-fire one does, each with a cue; nothing is collected exactly when no power-up reaches the ship after falling |
| Game.FirstPickupSetsFlag | script.js:253-261 | the first power-up that reaches the ship after falling switches on its own kind's flag |
| Game.LevelCheck | script.js:267-270 | the level rises by one, with a cue, exactly when the score exceeds 100 per current level; otherwise nothing changes |
| Game.Advance | script.js:197-216 | score, level, flags and power-ups are untouched; the ship keeps its geometry; bullets only shrink; no enemy is lost; at most one new enemy bullet per enemy; both bullet lists are pruned; cooldowns stay in [0, 80] |
| Game.Step | script.js:194-271 | a finished game is frozen and silent. In a running game the score rises by exactly 10 per explosion, one enemy fewer per explosion. The level rises by at most one, with the level-up cue, exactly when the new score exceeds 100 per old level. The game ends exactly when a game-over cue plays, and never with the shield up. The power flags only switch on, and only with a pickup cue |
| Game.StepFlagsFromPickups | script.js:246-265 | in a running frame a power flag switches on only when a power-up of its own kind reaches the moved ship after falling |
| Game.StepKeepsMoved | script.js:219-265 | the passes after the movement phase only remove: every bullet, enemy and enemy bullet left after a frame was there once everything had moved |
| Game.StepPrunes | script.js:201-216 | after a frame of a running game every bullet is below the top edge and every enemy bullet above the bottom edge |
| Game.InitialValid | script.js:79-92 | the initial state satisfies the scoring and cooldown invariant |
| Game.ScoringKeepsValid | script.js:225 | adding tens and a level earned by the new score keeps the score a non-negative multiple of 10 and the level earned |
| Game.StepKeepsCooldowns | script.js:204-228 | a frame keeps every enemy's cooldown in [0, 80] |
| Game.StepValid | script.js:194-271 | a frame keeps the score a non-negative multiple of 10, the level at least 1 and earned, and every cooldown in [0, 80] |
| Game.Apply | script.js:98-107 | a tick is one frame; any event other than a frame or the restart key leaves the score, level and game-over flag alone |
| Game.ApplyValid | script.js:98-157 | every event keeps the world valid |
| Game.Run | script.js:318-324 | a session applies its events one after another, each to the world the previous one left |
| Game.RunValid | script.js:318-324 | every session from a valid world stays valid |
| Game.RunMonotone | script.js:318-324 | without a restart, the score and the level never go down |
| Game.GameOverIsTerminal | script.js:195 | without a restart, a finished game stays finished with its score and level frozen |
| Game.RestartThenRun | script.js:106 | restarting a finished game and playing on is playing on from the initial state |

## Left out

- Drawing (`script.js:274-315`): it reads the state and does not change it.
- Audio (`script.js:5-76`): the cues a frame plays are counted per kind in `Game.Sounds`. Within a frame the cues play in a fixed order, so the counts carry the same information. The shot cue of `shoot` is not modelled.
- The DOM wiring of keys and touch buttons (`script.js:98-114`): it is modelled as the `Event`s a session applies.
- The canvas size: it is a parameter. The spawn range still uses the source's fixed 760.
- `Math.random()`: the drawn column and the drawn kind are parameters.
- Timers and `requestAnimationFrame` (`script.js:137, 157, 256, 261, 318-324`): they are modelled as events that the caller orders. Wall-clock timing, and which timer fires when, are not modelled.
- JavaScript's double-precision rounding: positions are exact reals, while the source's positions are binary doubles and its products and random draws round.
- The 2^53 limit of exact integers in JavaScript doubles: score, level and cooldown are unbounded integers. The source's `score += 10`, `level++` and `shootCooldown++` stay exact up to that limit, which play never reaches.
- Game.Step: the per-kind counts in `Sounds` do not record the order of cues across frames. They only record how many of each kind played in one frame.

=== FILE: actions.dfy ===
/** The operations that run outside the per-frame update: firing, the two
    spawners, the restart key and the power-up expiry timers. Randomness
    becomes a parameter and every timer becomes an operation the caller
    invokes when it fires. */
module Actions {
  import opened Entities

  const BulletSpeed: real := 8.0
  /** Muzzle offsets from the ship's left edge: the centre gun first, then the two side guns. */
  const CentreGun: real := 22.0
  const LeftGun: real := 5.0
  const RightGun: real := 40.0

  /** `Math.random() * 760`: the spawn position lies in [0, SpawnSpan). */
  const SpawnSpan: real := 760.0
  const EnemyW: real := 40.0
  const EnemyH: real := 20.0
  /** The side of the square a power-up is drawn as. */
  const PowerUpSize: real := 20.0

  function ShotAt(p: Player, offset: real): Bullet {
    Bullet(p.x + offset, p.y, BulletSpeed)
  }

  /** `shoot()`: one bullet from the centre gun, plus the two side guns under
      double fire; nothing else changes, and a finished game does not stop it. */
  function Shoot(w: World): (r: World)
    ensures r == w.(bullets := r.bullets)
    ensures |r.bullets| == |w.bullets| + (if w.doubleFire then 3 else 1)
    ensures r.bullets[..|w.bullets|] == w.bullets
    ensures r.bullets[|w.bullets|] == Bullet(w.player.x + 22.0, w.player.y, 8.0)
    ensures w.doubleFire ==>
      && r.bullets[|w.bullets| + 1] == Bullet(w.player.x + 5.0, w.player.y, 8.0)
      && r.bullets[|w.bullets| + 2] == Bullet(w.player.x + 40.0, w.player.y, 8.0)
  {
    var shots := [ShotAt(w.player, CentreGun)]
      + (if w.doubleFire then [ShotAt(w.player, LeftGun), ShotAt(w.player, RightGun)] else []);
    w.(bullets := w.bullets + shots)
  }

  /** Every new bullet leaves from the ship's top edge, and its probe lies
      within the ship's horizontal span when the ship is at least 45 wide. */
  lemma ShotsLeaveTheShip(w: World)
    requires w.player.w >= 45.0
    ensures forall k :: |w.bullets| <= k < |Shoot(w).bullets| ==>
      var b := Shoot(w).bullets[k];
      && b.y == w.player.y
      && w.player.x <= b.x
      && b.x + ProbeW <= w.player.x + w.player.w
  {
  }

  /** Starting from the initial ship position, single fire puts one bullet
      at x = 397; double fire adds side shots at x = 380 and x = 415, in that order. */
  lemma ShootFromStart(w: World)
    requires w.player == InitialPlayer && w.bullets == []
    ensures !w.doubleFire ==> Shoot(w).bullets == [Bullet(397.0, 450.0, 8.0)]
    ensures w.doubleFire ==>
      Shoot(w).bullets == [Bullet(397.0, 450.0, 8.0), Bullet(380.0, 450.0, 8.0), Bullet(415.0, 450.0, 8.0)]
  {
  }

  /** `spawnEnemy()` with the random position `x` given. */
  function SpawnEnemy(w: World, x: real): (r: World)
    requires 0.0 <= x < SpawnSpan
    ensures r == w.(enemies := r.enemies)
    ensures |r.enemies| == |w.enemies| + 1 && r.enemies[..|w.enemies|] == w.enemies
    ensures var e := r.enemies[|w.enemies|];
      && e.x == x && e.y == 0.0 && 0.0 <= e.x && e.x + e.w < 800.0
      && e.w == 40.0 && e.h == 20.0
      && e.speed == (2 + w.level) as real
      && e.shootCooldown == 0
  {
    w.(enemies := w.enemies + [Enemy(x, 0.0, EnemyW, EnemyH, (2 + w.level) as real, 0)])
  }

  /** The 1200 ms enemy timer: spawns only while the game is running. */
  function EnemyTimer(w: World, x: real): (r: World)
    requires 0.0 <= x < SpawnSpan
    ensures w.gameOver ==> r == w
    ensures !w.gameOver ==> |r.enemies| == |w.enemies| + 1
    ensures !w.gameOver ==>
      && r.enemies[..|w.enemies|] == w.enemies
      && r.enemies[|w.enemies|] == Enemy(x, 0.0, 40.0, 20.0, (2 + w.level) as real, 0)
    ensures r == w.(enemies := r.enemies)
  {
    if w.gameOver then w else SpawnEnemy(w, x)
  }

  /** `spawnPowerUp()` with the random position and kind given. The 8000 ms
      timer calls it unguarded, so it also runs after the game is over. */
  function SpawnPowerUp(w: World, x: real, kind: Kind): (r: World)
    requires 0.0 <= x < SpawnSpan
    ensures r == w.(powerUps := r.powerUps)
    ensures |r.powerUps| == |w.powerUps| + 1 && r.powerUps[..|w.powerUps|] == w.powerUps
    ensures var u := r.powerUps[|w.powerUps|];
      && u.x == x && u.y == 0.0 && u.kind == kind
      && 0.0 <= u.x && u.x + PowerUpSize < 800.0
  {
    w.(powerUps := w.powerUps + [PowerUp(x, 0.0, kind)])
  }

  /** `restartGame()`: empties every list, zeroes the score, resets the level
      and the flags and puts the ship back at its start column. */
  function Restart(w: World): (r: World)
    ensures r.bullets == [] && r.enemies == [] && r.enemyBullets == [] && r.powerUps == []
    ensures r.score == 0 && r.level == 1
    ensures !r.gameOver && !r.shieldActive && !r.doubleFire
    ensures r.player == w.player.(x := StartX)
  {
    World(w.player.(x := StartX), [], [], [], [], 0, 1, false, false, false)
  }

  /** Restarting gives back the declared initial state whenever the ship's
      geometry is still the initial one, and restarting twice is restarting once. */
  lemma RestartIsInitial(w: World)
    requires w.player.y == InitialPlayer.y && w.player.w == InitialPlayer.w
    requires w.player.h == InitialPlayer.h && w.player.speed == InitialPlayer.speed
    ensures Restart(w) == InitialWorld
    ensures Restart(Restart(w)) == Restart(w)
  {
  }

  /** The R key: restarts only a finished game, so afterwards the game is
      always running. */
  function RestartKey(w: World): (r: World)
    ensures !r.gameOver
    ensures w.gameOver ==> r == Restart(w)
    ensures !w.gameOver ==> r == w
  {
    if w.gameOver then Restart(w) else w
  }

  /** Pressing R twice is pressing it once: the first press leaves a running
      game, which the second leaves alone. */
  lemma RestartKeyIdempotent(w: World)
    ensures RestartKey(RestartKey(w)) == RestartKey(w)
  {
  }

  /** The 5000 ms shield timer clears the shield, whichever pickup armed it. */
  function ShieldExpiry(w: World): (r: World)
    ensures !r.shieldActive
    ensures r == w.(shieldActive := false)
  {
    w.(shieldActive := false)
  }

  /** The 5000 ms double-fire timer clears double fire, whichever pickup armed it. */
  function DoubleFireExpiry(w: World): (r: World)
    ensures !r.doubleFire
    ensures r == w.(doubleFire := false)
  {
    w.(doubleFire := false)
  }

  /** Once the double-fire timer has fired, the fire key shoots from the
      centre gun only. */
  lemma ExpiredDoubleFireShootsOnce(w: World)
    ensures Shoot(DoubleFireExpiry(w)).bullets == w.bullets + [Bullet(w.player.x + 22.0, w.player.y, 8.0)]
  {
  }
}

=== FILE: arrays.dfy ===
/** The two JavaScript array operations the game loop relies on, as
    functions on sequences: `a.splice(i, 1)` and `a.filter(keep)`. */
module Arrays {

  /** `a.splice(i, 1)`: removes the element at index `i` and shifts the rest
      down by one; an index at or past the end removes nothing. */
  function Remove<T>(s: seq<T>, i: nat): (r: seq<T>)
    ensures i < |s| ==> |r| == |s| - 1 && multiset(r) + multiset{s[i]} == multiset(s)
    ensures i >= |s| ==> r == s
    ensures forall k :: 0 <= k < i && k < |r| ==> r[k] == s[k]
    ensures forall k :: i <= k < |r| ==> r[k] == s[k + 1]
  {
    if i < |s| then
      assert s == s[..i] + [s[i]] + s[i + 1..];
      s[..i] + s[i + 1..]
    else
      s
  }

  /** `a.filter(keep)`: the elements `keep` accepts, in their original order.
      With `FilterConcat`, the one-element case fixes the order; `FilterCount`
      gives the multiplicities. */
  function Filter<T>(s: seq<T>, keep: T -> bool): (r: seq<T>)
    ensures |r| <= |s|
    ensures forall k :: 0 <= k < |r| ==> keep(r[k]) && r[k] in s
    ensures forall k :: 0 <= k < |s| && keep(s[k]) ==> s[k] in r
    ensures multiset(r) <= multiset(s)
    ensures |s| == 1 ==> r == if keep(s[0]) then s else []
    decreases |s|
  {
    if s == [] then []
    else
      assert s == [s[0]] + s[1..];
      if keep(s[0]) then [s[0]] + Filter(s[1..], keep) else Filter(s[1..], keep)
  }

  /** Filtering distributes over concatenation. */
  lemma {:induction false} FilterConcat<T>(a: seq<T>, b: seq<T>, keep: T -> bool)
    ensures Filter(a + b, keep) == Filter(a, keep) + Filter(b, keep)
    decreases |a|
  {
    if a == [] {
      assert a + b == b;
    } else {
      assert (a + b)[0] == a[0];
      assert (a + b)[1..] == a[1..] + b;
      FilterConcat(a[1..], b, keep);
    }
  }

  /** Every accepted value is kept exactly as often as it occurs, every
      rejected value not at all. */
  lemma {:induction false} FilterCount<T>(s: seq<T>, keep: T -> bool)
    ensures forall x :: multiset(Filter(s, keep))[x] == if keep(x) then multiset(s)[x] else 0
    decreases |s|
  {
    if s != [] {
      FilterCount(s[1..], keep);
      assert s == [s[0]] + s[1..];
      assert multiset(s) == multiset{s[0]} + multiset(s[1..]);
    }
  }

  /** Filtering by a stricter test after a looser one is filtering by the
      stricter one alone. */
  lemma {:induction false} FilterNarrow<T>(s: seq<T>, loose: T -> bool, strict: T -> bool)
    requires forall x :: strict(x) ==> loose(x)
    ensures Filter(Filter(s, loose), strict) == Filter(s, strict)
    decreases |s|
  {
    if s != [] {
      FilterNarrow(s[1..], loose, strict);
      if loose(s[0]) {
        var t := [s[0]] + Filter(s[1..], loose);
        assert t[0] == s[0] && t[1..] == Filter(s[1..], loose);
      }
    }
  }

  /** A rejected first element contributes nothing to the filter. */
  lemma FilterSkip<T>(s: seq<T>, keep: T -> bool)
    requires s != [] && !keep(s[0])
    ensures Filter(s, keep) == Filter(s[1..], keep)
  {
  }

  /** Splicing out an element the filter rejects does not change what the
      filter keeps: the removal touched nothing else. */
  lemma RemoveRejected<T>(s: seq<T>, i: nat, keep: T -> bool)
    requires i < |s| && !keep(s[i])
    ensures Filter(Remove(s, i), keep) == Filter(s, keep)
  {
    var head, rest := s[..i], s[i + 1..];
    var tail := s[i..];
    assert s == head + tail;
    assert tail[1..] == rest;
    FilterSkip(tail, keep);
    FilterConcat(head, tail, keep);
    FilterConcat(head, rest, keep);
  }

  /** A sequence whose multiset is contained in another's holds only elements of the other. */
  lemma SubMultisetMembers<T>(a: seq<T>, b: seq<T>)
    requires multiset(a) <= multiset(b)
    ensures forall k :: 0 <= k < |a| ==> a[k] in b
  {
    forall k | 0 <= k < |a| ensures a[k] in b {
      assert a[k] in multiset(a);
    }
  }
}

=== FILE: collisions.dfy ===
/** The three removal passes of a frame: player bullets against enemies,
    enemy bullets against the ship, and falling power-ups against the ship.

    Each pass is a JavaScript `forEach` that calls `splice` on the array it
    walks. `forEach` fixes the length when it starts and skips indices that
    are no longer present; since these passes only ever shrink their array,
    that is the same as advancing the index by one per visit and stopping
    once it reaches the array's current length, which is how the model
    walks. An element that moves into a just-vacated index is not visited,
    and a `splice` at an index past the end removes nothing. */
module Collisions {
  import opened Entities
  import opened Arrays
  import opened Motion

  /** The state of the bullet-against-enemy pass: both lists and the number
      of collisions detected so far. */
  datatype Clash = Clash(bullets: seq<Bullet>, enemies: seq<Enemy>, hits: nat)

  /** The enemies bullet `b` does not overlap. */
  function Spared(b: Bullet): Enemy -> bool {
    e => !Collide(b, e)
  }

  /** The enemies no bullet of `bs` overlaps. */
  function Untouched(bs: seq<Bullet>): Enemy -> bool {
    e => forall k :: 0 <= k < |bs| ==> !Collide(bs[k], e)
  }

  /** The inner walk of the bullet pass: bullet `b`, found at index `bi`,
      against the enemies from index `ei` on. Every detected collision
      splices index `bi` out of the bullets (whatever bullet sits there by
      then) and the enemy out of the enemies. */
  function SweepEnemies(b: Bullet, bi: nat, bs: seq<Bullet>, es: seq<Enemy>, ei: nat): (r: Clash)
    ensures |r.enemies| + r.hits == |es|
    ensures |r.bullets| <= |bs| && |bs| <= |r.bullets| + r.hits
    ensures multiset(r.bullets) <= multiset(bs) && multiset(r.enemies) <= multiset(es)
    ensures r.hits == 0 <==> forall j :: ei <= j < |es| ==> !Collide(b, es[j])
    ensures r.hits == 0 ==> r.bullets == bs && r.enemies == es
    decreases |es| - ei
  {
    if ei >= |es| then Clash(bs, es, 0)
    else if Collide(b, es[ei]) then
      var rest := SweepEnemies(b, bi, Remove(bs, bi), Remove(es, ei), ei + 1);
      Clash(rest.bullets, rest.enemies, rest.hits + 1)
    else
      SweepEnemies(b, bi, bs, es, ei + 1)
  }

  /** The outer walk of the bullet pass, from bullet index `bi` on. */
  function SweepBullets(bs: seq<Bullet>, es: seq<Enemy>, bi: nat): (r: Clash)
    ensures |r.enemies| + r.hits == |es|
    ensures |r.bullets| <= |bs| && |bs| <= |r.bullets| + r.hits
    ensures multiset(r.bullets) <= multiset(bs) && multiset(r.enemies) <= multiset(es)
    ensures r.hits == 0 <==> forall i, j :: bi <= i < |bs| && 0 <= j < |es| ==> !Collide(bs[i], es[j])
    ensures r.hits == 0 ==> r.bullets == bs && r.enemies == es
    decreases |bs| - bi
  {
    if bi >= |bs| then Clash(bs, es, 0)
    else
      var inner := SweepEnemies(bs[bi], bi, bs, es, 0);
      var rest := SweepBullets(inner.bullets, inner.enemies, bi + 1);
      Clash(rest.bullets, rest.enemies, inner.hits + rest.hits)
  }

  /** Every enemy the inner walk destroys is one the bullet overlaps: the
      enemies it does not overlap all survive, each as often as before and in order. */
  lemma {:induction false} SweepSparesMissed(b: Bullet, bi: nat, bs: seq<Bullet>, es: seq<Enemy>, ei: nat)
    ensures Filter(SweepEnemies(b, bi, bs, es, ei).enemies, Spared(b)) == Filter(es, Spared(b))
    decreases |es| - ei
  {
    if ei < |es| {
      if Collide(b, es[ei]) {
        RemoveRejected(es, ei, Spared(b));
        SweepSparesMissed(b, bi, Remove(bs, bi), Remove(es, ei), ei + 1);
      } else {
        SweepSparesMissed(b, bi, bs, es, ei + 1);
      }
    }
  }

  /** Every enemy the pass destroys is one some bullet overlaps: the enemies
      no bullet overlaps all survive, each as often as before and in order. */
  lemma {:induction false} SweepSparesUntouched(bs: seq<Bullet>, es: seq<Enemy>, bi: nat)
    ensures Filter(SweepBullets(bs, es, bi).enemies, Untouched(bs)) == Filter(es, Untouched(bs))
    decreases |bs| - bi
  {
    if bi < |bs| {
      var g := Untouched(bs);
      var h := Spared(bs[bi]);
      var inner := SweepEnemies(bs[bi], bi, bs, es, 0);
      SweepSparesMissed(bs[bi], bi, bs, es, 0);
      var g' := Untouched(inner.bullets);
      var rest := SweepBullets(inner.bullets, inner.enemies, bi + 1);
      SubMultisetMembers(inner.bullets, bs);
      forall x | g(x) ensures g'(x) {
        forall k | 0 <= k < |inner.bullets| ensures !Collide(inner.bullets[k], x) {
          assert inner.bullets[k] in bs;
        }
      }
      assert forall x :: g(x) ==> h(x);
      SweepSparesUntouched(inner.bullets, inner.enemies, bi + 1);
      FilterNarrow(rest.enemies, g', g);
      FilterNarrow(inner.enemies, g', g);
      FilterNarrow(inner.enemies, h, g);
      FilterNarrow(es, h, g);
    }
  }

  /** The pass never adds anything: every surviving bullet and enemy was
      there before it. */
  lemma SweepOnlyRemoves(bs: seq<Bullet>, es: seq<Enemy>)
    ensures forall b :: b in SweepBullets(bs, es, 0).bullets ==> b in bs
    ensures forall e :: e in SweepBullets(bs, es, 0).enemies ==> e in es
  {
    var r := SweepBullets(bs, es, 0);
    forall b | b in r.bullets ensures b in bs {
      assert b in multiset(r.bullets);
    }
    forall e | e in r.enemies ensures e in es {
      assert e in multiset(r.enemies);
    }
  }

  /** The inner walk of `OneBulletTwoKills` after its first hit. */
  lemma SecondKill(b0: Bullet, b1: Bullet, e0: Enemy, e1: Enemy)
    requires Collide(b0, e0)
    ensures SweepEnemies(b0, 0, [b1], [e1, e0], 1) == Clash([], [e1], 1)
  {
    assert Remove([b1], 0) == [];
    assert Remove([e1, e0], 1) == [e1];
    assert SweepEnemies(b0, 0, [], [e1], 2) == Clash([], [e1], 0);
  }

  /** A bullet `b0` that overlaps enemy `e0` twice in the list, with another
      enemy `e1` in between: the first hit moves the second copy of `e0`
      into the index the inner walk visits next, so `b0` destroys both
      copies and takes the bullet behind it along, whatever that bullet is. */
  lemma OneBulletTwoKills(b0: Bullet, b1: Bullet, e0: Enemy, e1: Enemy)
    requires Collide(b0, e0)
    ensures SweepBullets([b0, b1], [e0, e1, e0], 0) == Clash([], [e1], 2)
  {
    SecondKill(b0, b1, e0, e1);
    assert Remove([b0, b1], 0) == [b1];
    assert Remove([e0, e1, e0], 0) == [e1, e0];
    assert SweepEnemies(b0, 0, [b0, b1], [e0, e1, e0], 0) == Clash([], [e1], 2);
    assert SweepBullets([], [e1], 1) == Clash([], [e1], 0);
  }

  /** An enemy bullet strikes the ship when it is strictly inside the ship's
      horizontal span and below the ship's top edge. */
  predicate StrikesPlayer(b: Bullet, p: Player) {
    b.x > p.x && b.x < p.x + p.w && b.y > p.y
  }

  function Harmless(p: Player): Bullet -> bool {
    b => !StrikesPlayer(b, p)
  }

  /** The state of the enemy-bullet pass: the list and the number of strikes detected. */
  datatype Strike = Strike(enemyBullets: seq<Bullet>, strikes: nat)

  /** The enemy-bullet pass from index `i` on: each detected strike splices
      that bullet out. */
  function SweepEnemyBullets(bs: seq<Bullet>, p: Player, i: nat): (r: Strike)
    ensures |r.enemyBullets| + r.strikes == |bs|
    ensures multiset(r.enemyBullets) <= multiset(bs)
    ensures Filter(r.enemyBullets, Harmless(p)) == Filter(bs, Harmless(p))
    ensures r.strikes == 0 <==> forall j :: i <= j < |bs| ==> !StrikesPlayer(bs[j], p)
    ensures r.strikes == 0 ==> r.enemyBullets == bs
    decreases |bs| - i
  {
    if i >= |bs| then Strike(bs, 0)
    else if StrikesPlayer(bs[i], p) then
      RemoveRejected(bs, i, Harmless(p));
      var rest := SweepEnemyBullets(Remove(bs, i), p, i + 1);
      Strike(rest.enemyBullets, rest.strikes + 1)
    else
      SweepEnemyBullets(bs, p, i + 1)
  }

  /** A power-up is collected when, after falling, it is strictly inside the
      ship's horizontal span and below the ship's top edge. */
  predicate Reaches(u: PowerUp, p: Player) {
    u.x > p.x && u.x < p.x + p.w && u.y > p.y
  }

  const PowerUpFall: real := 2.0

  function Fall(u: PowerUp): PowerUp {
    u.(y := u.y + PowerUpFall)
  }

  function Kinds(us: seq<PowerUp>): (r: seq<Kind>)
    ensures |r| == |us| && forall k :: 0 <= k < |us| ==> r[k] == us[k].kind
  {
    seq(|us|, k requires 0 <= k < |us| => us[k].kind)
  }

  /** The state of the power-up pass: the list and the kinds collected, in order. */
  datatype Pickup = Pickup(powerUps: seq<PowerUp>, collected: seq<Kind>)

  /** The power-up pass from index `i` on: the visited power-up falls by 2
      and, if it then reaches the ship, is collected and spliced out. */
  function SweepPowerUps(us: seq<PowerUp>, p: Player, i: nat): (r: Pickup)
    ensures |r.powerUps| + |r.collected| == |us|
    ensures r.collected == [] <==> forall j :: i <= j < |us| ==> !Reaches(Fall(us[j]), p)
    ensures r.collected == [] ==>
      forall j :: 0 <= j < |us| ==> r.powerUps[j] == if j < i then us[j] else Fall(us[j])
    decreases |us| - i
  {
    if i >= |us| then Pickup(us, [])
    else
      var u := Fall(us[i]);
      if Reaches(u, p) then
        assert |Remove(us, i)| == |us| - 1;
        var rest := SweepPowerUps(Remove(us, i), p, i + 1);
        Pickup(rest.powerUps, [u.kind] + rest.collected)
      else
        assert forall j :: i < j < |us| ==> us[i := u][j] == us[j];
        SweepPowerUps(us[i := u], p, i + 1)
  }

  /** No power-up is lost or made up: the kinds left on screen and the
      kinds collected are together the kinds that were there. */
  lemma {:induction false} SweepKeepsKinds(us: seq<PowerUp>, p: Player, i: nat)
    ensures var r := SweepPowerUps(us, p, i);
      multiset(Kinds(r.powerUps)) + multiset(r.collected) == multiset(Kinds(us))
    decreases |us| - i, 1
  {
    if i < |us| {
      if Reaches(Fall(us[i]), p) {
        KindsAfterCollect(us, p, i);
      } else {
        KindsAfterFall(us, p, i);
      }
    }
  }

  lemma {:induction false} KindsAfterCollect(us: seq<PowerUp>, p: Player, i: nat)
    requires i < |us| && Reaches(Fall(us[i]), p)
    ensures var r := SweepPowerUps(us, p, i);
      multiset(Kinds(r.powerUps)) + multiset(r.collected) == multiset(Kinds(us))
    decreases |us| - i, 0
  {
    var rem := Remove(us, i);
    assert Kinds(rem) == Remove(Kinds(us), i);
    assert multiset(Kinds(rem)) + multiset{us[i].kind} == multiset(Kinds(us));
    SweepKeepsKinds(rem, p, i + 1);
    var rest := SweepPowerUps(rem, p, i + 1);
    var r := SweepPowerUps(us, p, i);
    assert r.powerUps == rest.powerUps && r.collected == [us[i].kind] + rest.collected;
    assert multiset(r.collected) == multiset{us[i].kind} + multiset(rest.collected);
  }

  lemma {:induction false} KindsAfterFall(us: seq<PowerUp>, p: Player, i: nat)
    requires i < |us| && !Reaches(Fall(us[i]), p)
    ensures var r := SweepPowerUps(us, p, i);
      multiset(Kinds(r.powerUps)) + multiset(r.collected) == multiset(Kinds(us))
    decreases |us| - i, 0
  {
    var fallen := us[i := Fall(us[i])];
    assert Kinds(fallen) == Kinds(us);
    SweepKeepsKinds(fallen, p, i + 1);
    assert SweepPowerUps(us, p, i) == SweepPowerUps(fallen, p, i + 1);
  }

  /** Each kind in `c` is the kind of a power-up from index `i` on that
      reaches the ship after falling. */
  ghost predicate FromReaching(us: seq<PowerUp>, p: Player, i: nat, c: seq<Kind>) {
    forall k :: 0 <= k < |c| ==>
      exists j :: i <= j < |us| && Reaches(Fall(us[j]), p) && us[j].kind == c[k]
  }

  lemma FromReachingCollect(us: seq<PowerUp>, p: Player, i: nat, c: seq<Kind>)
    requires i < |us| && Reaches(Fall(us[i]), p)
    requires FromReaching(Remove(us, i), p, i + 1, c)
    ensures FromReaching(us, p, i, [us[i].kind] + c)
  {
    var rem := Remove(us, i);
    var c' := [us[i].kind] + c;
    forall k | 0 <= k < |c'|
      ensures exists j :: i <= j < |us| && Reaches(Fall(us[j]), p) && us[j].kind == c'[k]
    {
      if k > 0 {
        var t := k - 1;
        assert c'[k] == c[t];
        var j :| i + 1 <= j < |rem| && Reaches(Fall(rem[j]), p) && rem[j].kind == c[t];
        assert rem[j] == us[j + 1];
      }
    }
  }

  lemma FromReachingSkip(us: seq<PowerUp>, p: Player, i: nat, c: seq<Kind>)
    requires i < |us|
    requires FromReaching(us[i := Fall(us[i])], p, i + 1, c)
    ensures FromReaching(us, p, i, c)
  {
    var fallen := us[i := Fall(us[i])];
    forall k | 0 <= k < |c|
      ensures exists j :: i <= j < |us| && Reaches(Fall(us[j]), p) && us[j].kind == c[k]
    {
      var j :| i + 1 <= j < |fallen| && Reaches(Fall(fallen[j]), p) && fallen[j].kind == c[k];
      assert fallen[j] == us[j];
    }
  }

  /** Only power-ups that reach the ship are collected: each collected kind
      is the kind of a visited power-up that reaches the ship after falling. */
  lemma {:induction false} CollectedReachShip(us: seq<PowerUp>, p: Player, i: nat)
    ensures FromReaching(us, p, i, SweepPowerUps(us, p, i).collected)
    decreases |us| - i
  {
    if i < |us| {
      if Reaches(Fall(us[i]), p) {
        CollectedReachShip(Remove(us, i), p, i + 1);
        FromReachingCollect(us, p, i, SweepPowerUps(Remove(us, i), p, i + 1).collected);
      } else {
        CollectedReachShip(us[i := Fall(us[i])], p, i + 1);
        FromReachingSkip(us, p, i, SweepPowerUps(us[i := Fall(us[i])], p, i + 1).collected);
      }
    }
  }

  /** Agreement on the first `n` elements. */
  ghost predicate SamePrefix(a: seq<PowerUp>, b: seq<PowerUp>, n: nat) {
    n <= |a| && n <= |b| && forall k :: 0 <= k < n ==> a[k] == b[k]
  }

  lemma SamePrefixShorter(a: seq<PowerUp>, b: seq<PowerUp>, c: seq<PowerUp>, n: nat)
    requires SamePrefix(a, b, n + 1) && SamePrefix(b, c, n)
    ensures SamePrefix(a, c, n)
  {
  }

  /** The power-up pass never touches the power-ups before index `i`. */
  lemma {:induction false} SweepKeepsPrefix(us: seq<PowerUp>, p: Player, i: nat)
    requires i <= |us|
    ensures SamePrefix(SweepPowerUps(us, p, i).powerUps, us, i)
    decreases |us| - i, 1
  {
    if i < |us| {
      if Reaches(Fall(us[i]), p) {
        PrefixAfterCollect(us, p, i);
      } else {
        PrefixAfterFall(us, p, i);
      }
    }
  }

  lemma {:induction false} PrefixAfterCollect(us: seq<PowerUp>, p: Player, i: nat)
    requires i < |us| && Reaches(Fall(us[i]), p)
    ensures SamePrefix(SweepPowerUps(us, p, i).powerUps, us, i)
    decreases |us| - i, 0
  {
    var rem := Remove(us, i);
    assert SamePrefix(rem, us, i);
    assert SweepPowerUps(us, p, i).powerUps == SweepPowerUps(rem, p, i + 1).powerUps;
    if i + 1 <= |rem| {
      SweepKeepsPrefix(rem, p, i + 1);
      SamePrefixShorter(SweepPowerUps(rem, p, i + 1).powerUps, rem, us, i);
    }
  }

  lemma {:induction false} PrefixAfterFall(us: seq<PowerUp>, p: Player, i: nat)
    requires i < |us| && !Reaches(Fall(us[i]), p)
    ensures SamePrefix(SweepPowerUps(us, p, i).powerUps, us, i)
    decreases |us| - i, 0
  {
    var fallen := us[i := Fall(us[i])];
    assert SamePrefix(fallen, us, i);
    assert SweepPowerUps(us, p, i).powerUps == SweepPowerUps(fallen, p, i + 1).powerUps;
    SweepKeepsPrefix(fallen, p, i + 1);
    SamePrefixShorter(SweepPowerUps(fallen, p, i + 1).powerUps, fallen, us, i);
  }

  /** Each power-up in `ps` from index `i` on is one from index `i` on in
      `us`, where it stayed or fell by 2. */
  ghost predicate FromVisited(us: seq<PowerUp>, i: nat, ps: seq<PowerUp>) {
    forall k :: i <= k < |ps| ==> exists j :: i <= j < |us| && (ps[k] == us[j] || ps[k] == Fall(us[j]))
  }

  lemma FromVisitedCollect(us: seq<PowerUp>, i: nat, ps: seq<PowerUp>)
    requires i < |us| && |ps| < |us|
    requires i < |ps| ==> ps[i] == us[i + 1]
    requires FromVisited(Remove(us, i), i + 1, ps)
    ensures FromVisited(us, i, ps)
  {
    var rem := Remove(us, i);
    forall k | i <= k < |ps|
      ensures exists j :: i <= j < |us| && (ps[k] == us[j] || ps[k] == Fall(us[j]))
    {
      if k > i {
        var j :| i + 1 <= j < |rem| && (ps[k] == rem[j] || ps[k] == Fall(rem[j]));
        assert rem[j] == us[j + 1];
      }
    }
  }

  lemma FromVisitedSkip(us: seq<PowerUp>, i: nat, ps: seq<PowerUp>)
    requires i < |us|
    requires i + 1 <= |ps| && ps[i] == Fall(us[i])
    requires FromVisited(us[i := Fall(us[i])], i + 1, ps)
    ensures FromVisited(us, i, ps)
  {
    var fallen := us[i := Fall(us[i])];
    forall k | i <= k < |ps|
      ensures exists j :: i <= j < |us| && (ps[k] == us[j] || ps[k] == Fall(us[j]))
    {
      if k > i {
        var j :| i + 1 <= j < |fallen| && (ps[k] == fallen[j] || ps[k] == Fall(fallen[j]));
        assert fallen[j] == us[j];
      }
    }
  }

  /** Every power-up that survives the pass from index `i` on is an input
      power-up from there on, either fallen by 2 or (when skipped) where it was. */
  lemma {:induction false} SweepSurvivors(us: seq<PowerUp>, p: Player, i: nat)
    ensures FromVisited(us, i, SweepPowerUps(us, p, i).powerUps)
    decreases |us| - i
  {
    if i < |us| {
      if Reaches(Fall(us[i]), p) {
        var rem := Remove(us, i);
        var ps := SweepPowerUps(rem, p, i + 1).powerUps;
        SweepSurvivors(rem, p, i + 1);
        if i + 1 <= |rem| {
          SweepKeepsPrefix(rem, p, i + 1);
          assert ps[i] == rem[i] == us[i + 1];
        }
        FromVisitedCollect(us, i, ps);
      } else {
        var fallen := us[i := Fall(us[i])];
        var ps := SweepPowerUps(fallen, p, i + 1).powerUps;
        SweepSurvivors(fallen, p, i + 1);
        SweepKeepsPrefix(fallen, p, i + 1);
        assert ps[i] == fallen[i];
        FromVisitedSkip(us, i, ps);
      }
    }
  }

  /** The first power-up that reaches the ship after falling is the first
      one collected: every one before it is visited, falls and stays. */
  lemma {:induction false} FirstReachingCollected(us: seq<PowerUp>, p: Player, i: nat, j: nat)
    requires i <= j < |us| && Reaches(Fall(us[j]), p)
    requires forall m :: i <= m < j ==> !Reaches(Fall(us[m]), p)
    ensures SweepPowerUps(us, p, i).collected != []
    ensures SweepPowerUps(us, p, i).collected[0] == us[j].kind
    decreases j - i
  {
    if i < j {
      var fallen := us[i := Fall(us[i])];
      assert !Reaches(Fall(us[i]), p);
      assert fallen[j] == us[j];
      assert forall m :: i + 1 <= m < j ==> fallen[m] == us[m];
      FirstReachingCollected(fallen, p, i + 1, j);
    }
  }

  /** Two power-ups that both reach the ship: the first is collected, the
      second moves into its index, is never visited and so neither falls nor
      is collected in this frame. */
  lemma PickupSkipsNeighbour()
    ensures
      var u := PowerUp(400.0, 449.0, Shield);
      var v := PowerUp(410.0, 449.0, DoubleFire);
      SweepPowerUps([u, v], InitialPlayer, 0) == Pickup([v], [Shield])
  {
    var u := PowerUp(400.0, 449.0, Shield);
    var v := PowerUp(410.0, 449.0, DoubleFire);
    assert Remove([u, v], 0) == [v];
  }
}

=== FILE: entities.dfy ===
/** The world state of the shooter: the player's ship, the four entity
    lists, the score, the level and the three flags, together with the
    box-overlap test every hit check builds on. */
module Entities {

  /** The player's ship; only `x` ever changes. */
  datatype Player = Player(x: real, y: real, w: real, h: real, speed: real)

  /** A projectile, fired by the player (moving up) or by an enemy (moving down). */
  datatype Bullet = Bullet(x: real, y: real, speed: real)

  datatype Enemy = Enemy(x: real, y: real, w: real, h: real, speed: real, shootCooldown: int)

  datatype Kind = Shield | DoubleFire

  datatype PowerUp = PowerUp(x: real, y: real, kind: Kind)

  datatype World = World(
    player: Player,
    bullets: seq<Bullet>,
    enemies: seq<Enemy>,
    enemyBullets: seq<Bullet>,
    powerUps: seq<PowerUp>,
    score: int,
    level: int,
    gameOver: bool,
    shieldActive: bool,
    doubleFire: bool)

  /** The drawing surface; its size comes from the page, so it is a parameter. */
  datatype Canvas = Canvas(width: real, height: real)

  const StartX: real := 375.0
  const InitialPlayer: Player := Player(StartX, 450.0, 50.0, 20.0, 6.0)
  const InitialWorld: World := World(InitialPlayer, [], [], [], [], 0, 1, false, false, false)

  /** Every projectile counts as a box of this size in the hit checks, whatever its own size. */
  const ProbeW: real := 5.0
  const ProbeH: real := 10.0

  function Abs(v: real): real {
    if v < 0.0 then -v else v
  }

  function Max(a: real, b: real): real {
    if a < b then b else a
  }

  function Min(a: real, b: real): real {
    if a < b then a else b
  }

  /** `collide(a, b)`: the probe at `a` overlaps the rectangle of `b`. */
  predicate Collide(a: Bullet, b: Enemy) {
    a.x < b.x + b.w && a.x + ProbeW > b.x && a.y < b.y + b.h && a.y + ProbeH > b.y
  }

  /** The point (px, py) lies strictly inside the box at (x, y) of size w by h. */
  ghost predicate Inside(px: real, py: real, x: real, y: real, w: real, h: real) {
    x < px < x + w && y < py < y + h
  }

  /** For an enemy of positive size, `Collide` holds exactly when the
      bullet's 5 by 10 probe and the enemy's rectangle share an interior point. */
  lemma CollideIffOverlap(a: Bullet, b: Enemy)
    requires b.w > 0.0 && b.h > 0.0
    ensures Collide(a, b) <==>
      exists px, py :: Inside(px, py, a.x, a.y, ProbeW, ProbeH) && Inside(px, py, b.x, b.y, b.w, b.h)
  {
    if Collide(a, b) {
      var px := (Max(a.x, b.x) + Min(a.x + ProbeW, b.x + b.w)) / 2.0;
      var py := (Max(a.y, b.y) + Min(a.y + ProbeH, b.y + b.h)) / 2.0;
      assert Inside(px, py, a.x, a.y, ProbeW, ProbeH) && Inside(px, py, b.x, b.y, b.w, b.h);
    }
  }
}

=== FILE: game.dfy ===
/** One frame of the game (`update`) and the sequence of frames, key
    presses and timer callbacks that make up a session. */
module Game {
  import opened Entities
  import opened Arrays
  import opened Motion
  import opened Collisions
  import opened Actions

  /** The two held direction keys. */
  datatype Keys = Keys(left: bool, right: bool)

  /** The sound cues a frame plays, counted per kind. Within a frame they
      always play in this order (explosions, game-over cues, pickup cues,
      level-up), so the counts say everything; the audio is not modelled. */
  datatype Sounds = Sounds(explosions: nat, gameOvers: nat, pickups: nat, levelUp: bool)

  /** A frame's result: the new world and the cues it played. */
  datatype Frame = Frame(world: World, sounds: Sounds)

  /** The world after one pass and the number of cues the pass played. */
  datatype Counted = Counted(world: World, cues: nat)

  const Silence: Sounds := Sounds(0, 0, 0, false)

  /** Bullets against enemies: each detected collision plays an explosion,
      adds 10 points and removes exactly one enemy; bullets only disappear;
      every enemy no bullet overlaps survives; there is an explosion exactly
      when some bullet overlaps some enemy. */
  function HitPass(w: World): (r: Counted)
    ensures r.world == w.(bullets := r.world.bullets, enemies := r.world.enemies, score := r.world.score)
    ensures multiset(r.world.bullets) <= multiset(w.bullets)
    ensures multiset(r.world.enemies) <= multiset(w.enemies)
    ensures |r.world.enemies| + r.cues == |w.enemies|
    ensures r.world.score == w.score + 10 * r.cues
    ensures forall k :: 0 <= k < |r.world.bullets| ==> r.world.bullets[k] in w.bullets
    ensures forall k :: 0 <= k < |r.world.enemies| ==> r.world.enemies[k] in w.enemies
    ensures Filter(r.world.enemies, Untouched(w.bullets)) == Filter(w.enemies, Untouched(w.bullets))
    ensures r.cues == 0 <==>
      forall i, j :: 0 <= i < |w.bullets| && 0 <= j < |w.enemies| ==> !Collide(w.bullets[i], w.enemies[j])
  {
    var clash := SweepBullets(w.bullets, w.enemies, 0);
    SweepSparesUntouched(w.bullets, w.enemies, 0);
    SubMultisetMembers(clash.bullets, w.bullets);
    SubMultisetMembers(clash.enemies, w.enemies);
    Counted(w.(bullets := clash.bullets, enemies := clash.enemies, score := w.score + 10 * clash.hits), clash.hits)
  }

  /** Enemy bullets against the ship: bullets only disappear, and at least
      one does exactly when some bullet strikes the ship; every strike
      plays a game-over cue while the shield is down, and the game ends
      exactly when one does. */
  function StrikePass(w: World): (r: Counted)
    ensures r.world == w.(enemyBullets := r.world.enemyBullets, gameOver := r.world.gameOver)
    ensures multiset(r.world.enemyBullets) <= multiset(w.enemyBullets)
    ensures |r.world.enemyBullets| < |w.enemyBullets| <==>
      exists k :: 0 <= k < |w.enemyBullets| && StrikesPlayer(w.enemyBullets[k], w.player)
    ensures w.shieldActive ==> r.cues == 0
    ensures !w.shieldActive ==> r.cues == |w.enemyBullets| - |r.world.enemyBullets|
    ensures r.world.gameOver <==> w.gameOver || r.cues > 0
    ensures forall k :: 0 <= k < |r.world.enemyBullets| ==> r.world.enemyBullets[k] in w.enemyBullets
  {
    var strike := SweepEnemyBullets(w.enemyBullets, w.player, 0);
    SubMultisetMembers(strike.enemyBullets, w.enemyBullets);
    var cues := if w.shieldActive then 0 else strike.strikes;
    Counted(w.(enemyBullets := strike.enemyBullets, gameOver := w.gameOver || cues > 0), cues)
  }

  /** Power-ups against the ship: each collected power-up is removed, plays
      a cue and switches on its own kind's flag; a flag switches on only when a power-up of its own kind
      reaches the ship after falling, and only with a cue; nothing is
      collected exactly when no power-up reaches the ship after falling. */
  function PowerUpPass(w: World): (r: Counted)
    ensures r.world == w.(powerUps := r.world.powerUps, shieldActive := r.world.shieldActive, doubleFire := r.world.doubleFire)
    ensures |r.world.powerUps| + r.cues == |w.powerUps|
    ensures w.shieldActive ==> r.world.shieldActive
    ensures w.doubleFire ==> r.world.doubleFire
    ensures (r.world.shieldActive && !w.shieldActive) || (r.world.doubleFire && !w.doubleFire) ==> r.cues > 0
    ensures r.cues == 0 <==> forall j :: 0 <= j < |w.powerUps| ==> !Reaches(Fall(w.powerUps[j]), w.player)
    ensures r.world.shieldActive && !w.shieldActive ==>
      exists j :: 0 <= j < |w.powerUps| && w.powerUps[j].kind == Shield && Reaches(Fall(w.powerUps[j]), w.player)
    ensures r.world.doubleFire && !w.doubleFire ==>
      exists j :: 0 <= j < |w.powerUps| && w.powerUps[j].kind == DoubleFire && Reaches(Fall(w.powerUps[j]), w.player)
    ensures var c := SweepPowerUps(w.powerUps, w.player, 0).collected;
      && r.cues == |c|
      && forall k :: 0 <= k < |c| ==>
           (c[k] == Shield ==> r.world.shieldActive) && (c[k] == DoubleFire ==> r.world.doubleFire)
  {
    var pickup := SweepPowerUps(w.powerUps, w.player, 0);
    CollectedReachShip(w.powerUps, w.player, 0);
    Counted(w.(powerUps := pickup.powerUps,
               shieldActive := w.shieldActive || Shield in pickup.collected,
               doubleFire := w.doubleFire || DoubleFire in pickup.collected),
            |pickup.collected|)
  }

  /** The first power-up that reaches the ship after falling switches its
      own flag on. */
  lemma FirstPickupSetsFlag(w: World, j: nat)
    requires j < |w.powerUps| && Reaches(Fall(w.powerUps[j]), w.player)
    requires forall m :: 0 <= m < j ==> !Reaches(Fall(w.powerUps[m]), w.player)
    ensures w.powerUps[j].kind == Shield ==> PowerUpPass(w).world.shieldActive
    ensures w.powerUps[j].kind == DoubleFire ==> PowerUpPass(w).world.doubleFire
  {
    var pickup := SweepPowerUps(w.powerUps, w.player, 0);
    FirstReachingCollected(w.powerUps, w.player, 0, j);
    assert w.powerUps[j].kind in pickup.collected;
  }

  /** Once the shield timer has fired, the strike pass ends the game exactly
      when it was over or some enemy bullet strikes the ship. */
  lemma ShieldExpiryExposesShip(w: World)
    ensures StrikePass(ShieldExpiry(w)).world.gameOver <==>
      w.gameOver || exists k :: 0 <= k < |w.enemyBullets| && StrikesPlayer(w.enemyBullets[k], w.player)
  {
  }

  /** Level progression: one level up, with its cue, exactly when the score
      has passed 100 points per current level. */
  function LevelCheck(w: World): (r: Counted)
    ensures r.world == w.(level := r.world.level)
    ensures r.world.level == w.level || r.world.level == w.level + 1
    ensures r.world.level == w.level + 1 <==> w.score > w.level * 100
    ensures r.cues == r.world.level - w.level
  {
    if w.score > w.level * 100 then Counted(w.(level := w.level + 1), 1) else Counted(w, 0)
  }

  /** Every player bullet is below the top edge and every enemy bullet above
      the bottom edge of a canvas `height` tall. */
  predicate Pruned(w: World, height: real) {
    && (forall k :: 0 <= k < |w.bullets| ==> w.bullets[k].y > 0.0)
    && (forall k :: 0 <= k < |w.enemyBullets| ==> w.enemyBullets[k].y < height)
  }

  /** Every bullet, enemy and enemy bullet of `to` is one of `from`'s. */
  ghost predicate DrawnFrom(to: World, from: World) {
    && (forall k :: 0 <= k < |to.bullets| ==> to.bullets[k] in from.bullets)
    && (forall k :: 0 <= k < |to.enemies| ==> to.enemies[k] in from.enemies)
    && (forall k :: 0 <= k < |to.enemyBullets| ==> to.enemyBullets[k] in from.enemyBullets)
  }

  /** The movement half of `update()` (the ship, the bullets, the enemies
      with their dodging and firing, the enemy bullets with the new shots):
      the scalars and the power-ups are untouched, the player bullets only
      shrink, no enemy is lost, and both bullet lists are pruned. */
  function Advance(w: World, keys: Keys, canvas: Canvas): (r: World)
    ensures r == w.(player := r.player, bullets := r.bullets, enemies := r.enemies, enemyBullets := r.enemyBullets)
    ensures r.player == w.player.(x := r.player.x)
    ensures |r.bullets| <= |w.bullets| && |r.enemies| == |w.enemies|
    ensures |r.enemyBullets| <= |w.enemyBullets| + |w.enemies|
    ensures Pruned(r, canvas.height)
    ensures (forall k :: 0 <= k < |w.enemies| ==> 0 <= w.enemies[k].shootCooldown <= FireDelay) ==>
      forall k :: 0 <= k < |r.enemies| ==> 0 <= r.enemies[k].shootCooldown <= FireDelay
  {
    var player := MovePlayer(w.player, keys.left, keys.right, canvas.width);
    var bullets := AdvanceBullets(w.bullets);
    var moved := StepEnemies(w.enemies, bullets, w.level);
    var enemyBullets := AdvanceEnemyBullets(w.enemyBullets + moved.1, canvas.height);
    w.(player := player, bullets := bullets, enemies := moved.0, enemyBullets := enemyBullets)
  }

  /** `update()`: nothing at all happens once the game is over; otherwise
      the movement half runs, then the three removal passes and the level
      check, in that order. A strike on an unshielded ship ends the game
      but the rest of the frame still runs, and a shield collected in a
      frame protects only from the next frame on.

      The score changes only by 10 per explosion, each explosion is one
      enemy fewer, the level rises by at most one (with its cue, and in a
      running game exactly when the new score passes 100 points per old
      level), the game ends exactly when a game-over cue plays (never with
      the shield up) and the power flags only switch on, with a cue. */
  function Step(w: World, keys: Keys, canvas: Canvas): (r: Frame)
    ensures w.gameOver ==> r == Frame(w, Silence)
    ensures r.world.score == w.score + 10 * r.sounds.explosions
    ensures |r.world.enemies| + r.sounds.explosions == |w.enemies|
    ensures |r.world.bullets| <= |w.bullets| && |r.world.powerUps| + r.sounds.pickups == |w.powerUps|
    ensures r.world.player == w.player.(x := r.world.player.x)
    ensures r.world.level == w.level || r.world.level == w.level + 1
    ensures r.world.level == w.level + 1 <==> r.sounds.levelUp
    ensures !w.gameOver ==> (r.world.level == w.level + 1 <==> r.world.score > w.level * 100)
    ensures !w.gameOver ==> (r.world.gameOver <==> r.sounds.gameOvers > 0)
    ensures w.shieldActive ==> r.world.gameOver == w.gameOver && r.sounds.gameOvers == 0
    ensures w.shieldActive ==> r.world.shieldActive
    ensures w.doubleFire ==> r.world.doubleFire
    ensures (r.world.shieldActive && !w.shieldActive) || (r.world.doubleFire && !w.doubleFire) ==>
      r.sounds.pickups > 0
  {
    if w.gameOver then Frame(w, Silence)
    else
      var moved := Advance(w, keys, canvas);
      var hit := HitPass(moved);
      var strike := StrikePass(hit.world);
      var pickup := PowerUpPass(strike.world);
      var level := LevelCheck(pickup.world);
      assert |hit.world.bullets| == |multiset(hit.world.bullets)| <= |multiset(moved.bullets)|;
      Frame(level.world, Sounds(hit.cues, strike.cues, pickup.cues, level.cues > 0))
  }

  /** The passes after the movement phase only remove: every bullet, enemy
      and enemy bullet left after a frame was there once everything moved. */
  lemma StepKeepsMoved(w: World, keys: Keys, canvas: Canvas)
    requires !w.gameOver
    ensures DrawnFrom(Step(w, keys, canvas).world, Advance(w, keys, canvas))
  {
    var moved := Advance(w, keys, canvas);
    var hit := HitPass(moved);
    var strike := StrikePass(hit.world);
    var r := Step(w, keys, canvas).world;
    assert r.bullets == hit.world.bullets && r.enemies == hit.world.enemies;
    assert r.enemyBullets == strike.world.enemyBullets;
    assert hit.world.enemyBullets == moved.enemyBullets;
  }

  /** After a frame of a running game every player bullet is below the top
      edge and every enemy bullet above the bottom edge: the prunes are the
      last additions to those lists and the later passes only remove. */
  lemma StepPrunes(w: World, keys: Keys, canvas: Canvas)
    requires !w.gameOver
    ensures Pruned(Step(w, keys, canvas).world, canvas.height)
  {
    StepKeepsMoved(w, keys, canvas);
    StillPruned(Step(w, keys, canvas).world, Advance(w, keys, canvas), canvas.height);
  }

  /** A world whose bullets are drawn from a pruned world's is pruned. */
  lemma StillPruned(to: World, from: World, height: real)
    requires Pruned(from, height) && DrawnFrom(to, from)
    ensures Pruned(to, height)
  {
  }

  /** In a frame a power flag switches on only when a power-up of its own
      kind reaches the moved ship after falling. */
  lemma StepFlagsFromPickups(w: World, keys: Keys, canvas: Canvas)
    requires !w.gameOver
    ensures var r := Step(w, keys, canvas).world;
      && (r.shieldActive && !w.shieldActive ==>
            exists j :: 0 <= j < |w.powerUps| && w.powerUps[j].kind == Shield && Reaches(Fall(w.powerUps[j]), r.player))
      && (r.doubleFire && !w.doubleFire ==>
            exists j :: 0 <= j < |w.powerUps| && w.powerUps[j].kind == DoubleFire && Reaches(Fall(w.powerUps[j]), r.player))
  {
    var moved := Advance(w, keys, canvas);
    var hit := HitPass(moved);
    var strike := StrikePass(hit.world);
    var pickup := PowerUpPass(strike.world);
    var r := Step(w, keys, canvas).world;
    assert r == LevelCheck(pickup.world).world;
    assert strike.world.powerUps == w.powerUps && strike.world.player == r.player;
    assert strike.world.shieldActive == w.shieldActive && strike.world.doubleFire == w.doubleFire;
    assert r.shieldActive == pickup.world.shieldActive && r.doubleFire == pickup.world.doubleFire;
  }

  predicate MultipleOfTen(s: int) {
    s % 10 == 0
  }

  /** The scoring invariant: a non-negative multiple of 10, and a level of
      at least 1 that the score has earned. */
  predicate ScoreValid(score: int, level: int) {
    && score >= 0 && MultipleOfTen(score)
    && level >= 1 && (level == 1 || (level - 1) * 100 < score)
  }

  /** The enemy invariant: every shoot cooldown lies in [0, 80]. */
  predicate CooldownsValid(es: seq<Enemy>) {
    forall k :: 0 <= k < |es| ==> 0 <= es[k].shootCooldown <= FireDelay
  }

  predicate Valid(w: World) {
    ScoreValid(w.score, w.level) && CooldownsValid(w.enemies)
  }

  /** The initial state is valid. */
  lemma InitialValid()
    ensures Valid(InitialWorld)
  {
  }

  /** Scoring tens and levelling up as a frame does keeps the scoring invariant. */
  lemma ScoringKeepsValid(score: int, level: int, score': int, level': int, tens: nat)
    requires ScoreValid(score, level)
    requires score' == score + 10 * tens
    requires level' == level || (level' == level + 1 && score' > level * 100)
    ensures ScoreValid(score', level')
  {
    AddTens(score, tens);
  }

  /** A frame keeps every cooldown in [0, 80]: the enemy phase keeps them
      there and the hit pass only removes enemies. */
  lemma StepKeepsCooldowns(w: World, keys: Keys, canvas: Canvas)
    requires CooldownsValid(w.enemies)
    ensures CooldownsValid(Step(w, keys, canvas).world.enemies)
  {
    if !w.gameOver {
      var moved := Advance(w, keys, canvas);
      StepKeepsMoved(w, keys, canvas);
      CooldownsOfMembers(Step(w, keys, canvas).world.enemies, moved.enemies);
    }
  }

  /** Enemies drawn from enemies with valid cooldowns have valid cooldowns. */
  lemma CooldownsOfMembers(es: seq<Enemy>, from: seq<Enemy>)
    requires CooldownsValid(from)
    requires forall k :: 0 <= k < |es| ==> es[k] in from
    ensures CooldownsValid(es)
  {
  }

  /** A frame keeps the world valid. */
  lemma StepValid(w: World, keys: Keys, canvas: Canvas)
    requires Valid(w)
    ensures Valid(Step(w, keys, canvas).world)
  {
    var r := Step(w, keys, canvas);
    ScoringKeepsValid(w.score, w.level, r.world.score, r.world.level, r.sounds.explosions);
    StepKeepsCooldowns(w, keys, canvas);
  }

  /** Adding tens keeps a multiple of ten a multiple of ten. */
  lemma {:induction false} AddTens(s: int, n: nat)
    requires MultipleOfTen(s)
    ensures MultipleOfTen(s + 10 * n)
    decreases n
  {
    if n > 0 {
      AddTens(s, n - 1);
      assert s + 10 * n == (s + 10 * (n - 1)) + 10;
    }
  }

  /** Everything that can happen between two frames or as one: a frame with
      the held keys, the fire key, a timer callback with its random draws,
      or the restart key. */
  datatype Event =
    | Tick(keys: Keys)
    | Fire
    | EnemySpawn(x: real)
    | PowerUpSpawn(x: real, kind: Kind)
    | ShieldTimeout
    | DoubleFireTimeout
    | RestartPressed

  /** The random draws lie in the range `Math.random() * 760` produces. */
  predicate WellFormed(ev: Event) {
    match ev
    case EnemySpawn(x) => 0.0 <= x < SpawnSpan
    case PowerUpSpawn(x, _) => 0.0 <= x < SpawnSpan
    case _ => true
  }

  function Apply(w: World, ev: Event, canvas: Canvas): (r: World)
    requires WellFormed(ev)
    ensures ev.Tick? ==> r == Step(w, ev.keys, canvas).world
    ensures !ev.Tick? && !ev.RestartPressed? ==>
      r.score == w.score && r.level == w.level && r.gameOver == w.gameOver
  {
    match ev
    case Tick(keys) => Step(w, keys, canvas).world
    case Fire => Shoot(w)
    case EnemySpawn(x) => EnemyTimer(w, x)
    case PowerUpSpawn(x, kind) => SpawnPowerUp(w, x, kind)
    case ShieldTimeout => ShieldExpiry(w)
    case DoubleFireTimeout => DoubleFireExpiry(w)
    case RestartPressed => RestartKey(w)
  }

  /** A session: the events applied one after another. */
  function Run(w: World, evs: seq<Event>, canvas: Canvas): World
    requires forall k :: 0 <= k < |evs| ==> WellFormed(evs[k])
    decreases |evs|
  {
    if evs == [] then w else Run(Apply(w, evs[0], canvas), evs[1..], canvas)
  }

  /** Every event keeps the world valid. */
  lemma ApplyValid(w: World, ev: Event, canvas: Canvas)
    requires Valid(w) && WellFormed(ev)
    ensures Valid(Apply(w, ev, canvas))
  {
    match ev
    case Tick(keys) => StepValid(w, keys, canvas);
    case EnemySpawn(x) =>
      var r := EnemyTimer(w, x);
      assert forall k :: 0 <= k < |w.enemies| ==> r.enemies[k] == w.enemies[k];
    case _ =>
  }

  /** Every session from a valid world stays valid. */
  lemma {:induction false} RunValid(w: World, evs: seq<Event>, canvas: Canvas)
    requires Valid(w)
    requires forall k :: 0 <= k < |evs| ==> WellFormed(evs[k])
    ensures Valid(Run(w, evs, canvas))
    decreases |evs|
  {
    if evs != [] {
      ApplyValid(w, evs[0], canvas);
      RunValid(Apply(w, evs[0], canvas), evs[1..], canvas);
    }
  }

  /** Without a restart, neither the score nor the level ever goes down. */
  lemma {:induction false} RunMonotone(w: World, evs: seq<Event>, canvas: Canvas)
    requires forall k :: 0 <= k < |evs| ==> WellFormed(evs[k]) && !evs[k].RestartPressed?
    ensures Run(w, evs, canvas).score >= w.score
    ensures Run(w, evs, canvas).level >= w.level
    decreases |evs|
  {
    if evs != [] {
      RunMonotone(Apply(w, evs[0], canvas), evs[1..], canvas);
    }
  }

  /** A finished game stays finished, with its score and level frozen,
      until the restart key is pressed, whatever else happens meanwhile. */
  lemma {:induction false} GameOverIsTerminal(w: World, evs: seq<Event>, canvas: Canvas)
    requires w.gameOver
    requires forall k :: 0 <= k < |evs| ==> WellFormed(evs[k]) && !evs[k].RestartPressed?
    ensures Run(w, evs, canvas).gameOver
    ensures Run(w, evs, canvas).score == w.score && Run(w, evs, canvas).level == w.level
    decreases |evs|
  {
    if evs != [] {
      GameOverIsTerminal(Apply(w, evs[0], canvas), evs[1..], canvas);
    }
  }

  /** Restarting a finished game and then playing on is the same as
      playing on from the initial state, for a ship of the initial geometry. */
  lemma RestartThenRun(w: World, evs: seq<Event>, canvas: Canvas)
    requires w.gameOver && w.player.(x := StartX) == InitialPlayer
    requires forall k :: 0 <= k < |evs| ==> WellFormed(evs[k])
    ensures Run(w, [RestartPressed] + evs, canvas) == Run(InitialWorld, evs, canvas)
  {
    assert Apply(w, RestartPressed, canvas) == InitialWorld;
    assert ([RestartPressed] + evs)[1..] == evs;
  }
}

=== FILE: motion.dfy ===
/** The movement phases of one frame: the ship under the held keys, the
    player's bullets, the enemies with their dodging and firing, and the
    enemies' bullets. */
module Motion {
  import opened Entities
  import opened Arrays

  /** The ship's column stays strictly within one step of the playfield
      [0, width - w]; the movement guards keep it there but do not clamp it. */
  predicate InBand(p: Player, width: real) {
    -p.speed < p.x < width - p.w + p.speed
  }

  /** Held-key movement: left moves while x > 0, then right moves while the
      (possibly already moved) ship is short of the right edge. */
  function MovePlayer(p: Player, left: bool, right: bool, width: real): (r: Player)
    ensures r == p.(x := r.x)
    ensures r.x == p.x || r.x == p.x - p.speed || r.x == p.x + p.speed
    ensures p.speed > 0.0 && r.x < p.x ==> left && p.x > 0.0
    ensures p.speed > 0.0 && r.x > p.x ==> right && r.x - p.speed < width - p.w
    ensures p.speed > 0.0 && !right ==> (r.x == p.x - p.speed <==> left && p.x > 0.0)
    ensures p.speed > 0.0 && !left ==> (r.x == p.x + p.speed <==> right && p.x < width - p.w)
    ensures p.speed > 0.0 && left && right && p.x > 0.0 ==>
      (r.x == p.x <==> p.x - p.speed < width - p.w)
    ensures p.speed > 0.0 && right && !(left && p.x > 0.0) ==> (r.x == p.x + p.speed <==> p.x < width - p.w)
  {
    var afterLeft := if left && p.x > 0.0 then p.x - p.speed else p.x;
    var afterRight := if right && afterLeft < width - p.w then afterLeft + p.speed else afterLeft;
    p.(x := afterRight)
  }

  /** Movement never takes the ship out of its band. */
  lemma MoveStaysInBand(p: Player, left: bool, right: bool, width: real)
    requires p.speed >= 0.0 && InBand(p, width)
    ensures InBand(MovePlayer(p, left, right, width), width)
  {
  }

  /** The left guard tests x > 0 before the step, so a ship at x = 3 ends at
      x = -3: the ship is not clamped to the playfield. */
  lemma MoveOvershootsLeftEdge()
    ensures MovePlayer(InitialPlayer.(x := 3.0), true, false, 800.0).x == -3.0
  {
  }

  function Climb(b: Bullet): Bullet {
    b.(y := b.y - b.speed)
  }

  function Sink(b: Bullet): Bullet {
    b.(y := b.y + b.speed)
  }

  predicate Aloft(b: Bullet) {
    b.y > 0.0
  }

  /** Every player bullet moved up by its speed, in order. */
  function Climbed(bs: seq<Bullet>): (r: seq<Bullet>)
    ensures |r| == |bs| && forall i :: 0 <= i < |bs| ==> r[i] == Climb(bs[i])
  {
    seq(|bs|, i requires 0 <= i < |bs| => Climb(bs[i]))
  }

  /** Every enemy bullet moved down by its speed, in order. */
  function Sunk(bs: seq<Bullet>): (r: seq<Bullet>)
    ensures |r| == |bs| && forall i :: 0 <= i < |bs| ==> r[i] == Sink(bs[i])
  {
    seq(|bs|, i requires 0 <= i < |bs| => Sink(bs[i]))
  }

  /** An enemy bullet still above the bottom edge. */
  function OnScreen(height: real): Bullet -> bool {
    (b: Bullet) => b.y < height
  }

  /** Player bullets move up by their speed; those at or above the top edge
      are dropped and the others are kept in order. */
  function AdvanceBullets(bs: seq<Bullet>): (r: seq<Bullet>)
    ensures |r| <= |bs|
    ensures forall k :: 0 <= k < |r| ==> r[k].y > 0.0
    ensures forall k :: 0 <= k < |r| ==> exists i :: 0 <= i < |bs| && r[k] == Climb(bs[i])
    ensures forall i :: 0 <= i < |bs| && Climb(bs[i]).y > 0.0 ==> Climb(bs[i]) in r
  {
    Filter(Climbed(bs), Aloft)
  }

  /** Enemy bullets move down by their speed; those at or below the bottom
      edge are dropped and the others are kept in order. */
  function AdvanceEnemyBullets(bs: seq<Bullet>, height: real): (r: seq<Bullet>)
    ensures |r| <= |bs|
    ensures forall k :: 0 <= k < |r| ==> r[k].y < height
    ensures forall k :: 0 <= k < |r| ==> exists i :: 0 <= i < |bs| && r[k] == Sink(bs[i])
    ensures forall i :: 0 <= i < |bs| && Sink(bs[i]).y < height ==> Sink(bs[i]) in r
  {
    Filter(Sunk(bs), OnScreen(height))
  }

  /** Moving and pruning keeps every surviving player bullet as often as it
      occurs among the moved ones: twin bullets stay twins. */
  lemma AdvanceBulletsCount(bs: seq<Bullet>)
    ensures forall c :: multiset(AdvanceBullets(bs))[c] == (if c.y > 0.0 then multiset(Climbed(bs))[c] else 0)
  {
    FilterCount(Climbed(bs), Aloft);
  }

  /** Moving and pruning keeps every surviving enemy bullet as often as it
      occurs among the moved ones. */
  lemma AdvanceEnemyBulletsCount(bs: seq<Bullet>, height: real)
    ensures forall c :: multiset(AdvanceEnemyBullets(bs, height))[c] == (if c.y < height then multiset(Sunk(bs))[c] else 0)
  {
    FilterCount(Sunk(bs), OnScreen(height));
  }

  const DodgeRange: real := 30.0
  const DodgeDepth: real := 40.0
  const DodgeFactor: real := 0.15
  /** The most one bullet can push an enemy. */
  const DodgeReach: real := DodgeRange * DodgeFactor

  /** A bullet within 30 columns of the enemy and above its lower band. */
  predicate Threatens(b: Bullet, e: Enemy) {
    Abs(b.x - e.x) < DodgeRange && b.y < e.y + DodgeDepth
  }

  /** One step of `dodgeAI`: a threatening bullet pushes the enemy sideways,
      away from itself, by 15% of their horizontal distance. */
  function Nudge(e: Enemy, b: Bullet): (r: Enemy)
    ensures r == e.(x := r.x)
    ensures !Threatens(b, e) ==> r == e
    ensures e.x > b.x ==> r.x >= e.x
    ensures e.x < b.x ==> r.x <= e.x
    ensures Abs(r.x - b.x) >= Abs(e.x - b.x)
    ensures Threatens(b, e) ==> Abs(r.x - b.x) == Abs(e.x - b.x) * (1.0 + DodgeFactor)
    ensures Threatens(b, e) && e.x != b.x ==> Abs(r.x - b.x) > Abs(e.x - b.x)
    ensures Abs(r.x - e.x) < DodgeReach
  {
    if Threatens(b, e) then e.(x := e.x + (e.x - b.x) * DodgeFactor) else e
  }

  /** `dodgeAI(enemy)`: the bullets push the enemy one after another, each
      seeing the position the previous ones left; only `x` changes, and by at
      most DodgeReach per bullet. */
  function Dodge(e: Enemy, bs: seq<Bullet>): (r: Enemy)
    ensures r == e.(x := r.x)
    ensures Abs(r.x - e.x) <= DodgeReach * |bs| as real
    decreases |bs|
  {
    if bs == [] then e
    else
      var n := Nudge(e, bs[0]);
      assert DodgeReach == 4.5;
      assert DodgeReach * |bs| as real == DodgeReach + DodgeReach * |bs[1..]| as real;
      Dodge(n, bs[1..])
  }

  /** The bullets push in list order: dodging a list with one more bullet at
      its end is dodging the list, then being nudged by that bullet. */
  lemma {:induction false} DodgeSnoc(e: Enemy, bs: seq<Bullet>, b: Bullet)
    ensures Dodge(e, bs + [b]) == Nudge(Dodge(e, bs), b)
    decreases |bs|
  {
    if bs == [] {
      assert bs + [b] == [b];
    } else {
      assert (bs + [b])[0] == bs[0] && (bs + [b])[1..] == bs[1..] + [b];
      DodgeSnoc(Nudge(e, bs[0]), bs[1..], b);
    }
  }

  /** An enemy no bullet threatens stays where it is. */
  lemma {:induction false} DodgeUnthreatened(e: Enemy, bs: seq<Bullet>)
    requires forall k :: 0 <= k < |bs| ==> !Threatens(bs[k], e)
    ensures Dodge(e, bs) == e
    decreases |bs|
  {
    if bs != [] {
      assert Nudge(e, bs[0]) == e;
      DodgeUnthreatened(e, bs[1..]);
    }
  }

  const FireDelay: int := 80

  /** `enemyShoot(e)`: a bullet from the middle of the enemy's bottom edge,
      faster at higher levels. */
  function EnemyShoot(e: Enemy, level: int): (r: Bullet)
    ensures r.x - e.x == e.x + e.w - r.x
    ensures r.y == e.y + e.h
    ensures r.speed == 4.0 + level as real
  {
    Bullet(e.x + e.w / 2.0, e.y + e.h, (4 + level) as real)
  }

  /** The shot leaves from inside the enemy's horizontal span. */
  lemma ShotFromWithin(e: Enemy, level: int)
    requires e.w > 0.0
    ensures e.x < EnemyShoot(e, level).x < e.x + e.w
  {
  }

  /** One enemy's part of the frame: fall by its speed, dodge, count the
      cooldown up, and fire (resetting the cooldown) once it passes 80. */
  function StepEnemy(e: Enemy, bs: seq<Bullet>, level: int): (r: (Enemy, seq<Bullet>))
    ensures r.0 == Dodge(e.(y := e.y + e.speed), bs).(shootCooldown := r.0.shootCooldown)
    ensures |r.1| <= 1
    ensures |r.1| == 1 <==> e.shootCooldown + 1 > FireDelay
    ensures |r.1| == 1 ==> r.0.shootCooldown == 0 && r.1[0] == EnemyShoot(r.0, level)
    ensures |r.1| == 0 ==> r.0.shootCooldown == e.shootCooldown + 1
    ensures 0 <= e.shootCooldown <= FireDelay ==> 0 <= r.0.shootCooldown <= FireDelay
  {
    var moved := Dodge(e.(y := e.y + e.speed), bs);
    var counted := moved.(shootCooldown := moved.shootCooldown + 1);
    if counted.shootCooldown > FireDelay then
      (counted.(shootCooldown := 0), [EnemyShoot(counted, level)])
    else
      (counted, [])
  }

  /** The enemy phase over the whole list, collecting the shots in enemy order. */
  function StepEnemies(es: seq<Enemy>, bs: seq<Bullet>, level: int): (r: (seq<Enemy>, seq<Bullet>))
    ensures |r.0| == |es| && |r.1| <= |es|
    ensures forall i :: 0 <= i < |es| ==> r.0[i] == StepEnemy(es[i], bs, level).0
    decreases |es|
  {
    if es == [] then ([], [])
    else
      var head := StepEnemy(es[0], bs, level);
      var tail := StepEnemies(es[1..], bs, level);
      ([head.0] + tail.0, head.1 + tail.1)
  }

  /** The enemy phase splits into the first enemy's part and the rest's. */
  lemma StepEnemiesCons(es: seq<Enemy>, bs: seq<Bullet>, level: int)
    requires es != []
    ensures StepEnemies(es, bs, level).0 == [StepEnemy(es[0], bs, level).0] + StepEnemies(es[1..], bs, level).0
    ensures StepEnemies(es, bs, level).1 == StepEnemy(es[0], bs, level).1 + StepEnemies(es[1..], bs, level).1
  {
  }

  /** Each shot of the enemy phase comes from an enemy whose cooldown has
      just been reset, fired from that enemy's new position. */
  lemma {:induction false} ShotsFromDueEnemies(es: seq<Enemy>, bs: seq<Bullet>, level: int)
    ensures var r := StepEnemies(es, bs, level);
      forall k :: 0 <= k < |r.1| ==>
        exists i :: 0 <= i < |r.0| && r.0[i].shootCooldown == 0 && r.1[k] == EnemyShoot(r.0[i], level)
    decreases |es|
  {
    if es != [] {
      var r := StepEnemies(es, bs, level);
      var head := StepEnemy(es[0], bs, level);
      var tail := StepEnemies(es[1..], bs, level);
      StepEnemiesCons(es, bs, level);
      ShotsFromDueEnemies(es[1..], bs, level);
      forall k | 0 <= k < |r.1|
        ensures exists i :: 0 <= i < |r.0| && r.0[i].shootCooldown == 0 && r.1[k] == EnemyShoot(r.0[i], level)
      {
        if k < |head.1| {
          assert r.1[k] == head.1[0] && r.0[0] == head.0;
        } else {
          var t := k - |head.1|;
          assert r.1[k] == tail.1[t];
          var i :| 0 <= i < |tail.0| && tail.0[i].shootCooldown == 0 && tail.1[t] == EnemyShoot(tail.0[i], level);
          assert r.0[i + 1] == tail.0[i];
        }
      }
    }
  }

  /** Every enemy whose incremented cooldown passed 80 fires exactly its
      shot in the enemy phase. */
  lemma {:induction false} DueEnemiesFire(es: seq<Enemy>, bs: seq<Bullet>, level: int)
    ensures var r := StepEnemies(es, bs, level);
      forall i :: 0 <= i < |es| && es[i].shootCooldown + 1 > FireDelay ==> EnemyShoot(r.0[i], level) in r.1
    decreases |es|
  {
    if es != [] {
      var r := StepEnemies(es, bs, level);
      var head := StepEnemy(es[0], bs, level);
      var tail := StepEnemies(es[1..], bs, level);
      StepEnemiesCons(es, bs, level);
      DueEnemiesFire(es[1..], bs, level);
      forall i | 0 <= i < |es| && es[i].shootCooldown + 1 > FireDelay
        ensures EnemyShoot(r.0[i], level) in r.1
      {
        if i == 0 {
          assert head.1[0] in head.1 && r.0[0] == head.0;
        } else {
          assert es[i] == es[1..][i - 1] && r.0[i] == tail.0[i - 1];
          assert EnemyShoot(tail.0[i - 1], level) in tail.1;
        }
      }
    }
  }

  /** An enemy whose incremented cooldown passes the fire delay shoots this frame. */
  predicate Due(e: Enemy) {
    e.shootCooldown + 1 > FireDelay
  }

  /** The enemy phase fires exactly one shot per due enemy. */
  lemma {:induction false} ShotCount(es: seq<Enemy>, bs: seq<Bullet>, level: int)
    ensures |StepEnemies(es, bs, level).1| == |Filter(es, Due)|
    decreases |es|
  {
    if es != [] {
      StepEnemiesCons(es, bs, level);
      ShotCount(es[1..], bs, level);
    }
  }

  /** Every cooldown that starts in [0, 80] ends the frame in [0, 80]. */
  lemma CooldownsStayBounded(es: seq<Enemy>, bs: seq<Bullet>, level: int)
    requires forall i :: 0 <= i < |es| ==> 0 <= es[i].shootCooldown <= FireDelay
    ensures forall i :: 0 <= i < |es| ==> 0 <= StepEnemies(es, bs, level).0[i].shootCooldown <= FireDelay
  {
  }
}
